=== FILE: README.md ===
# Attention monitor: client engine and session server, modelled in Dafny

The system watches participants of an online class. Each participant runs a
client (`studentserver/student_server.py`) that measures eye closure, yawning
and head rotation on every camera frame. The client keeps a 10-second batch
PERCLOS score (percentage of frames with closed eyes), a smoothed live score
over the last 300 frames with a face, and a blink counter. When the live
status is alarming it triggers a local alert at most once every 5 s (a sound
plays only on Windows, see below), and it posts a report to
the host every 10 s. The host (`host_server/server.py`) keeps a live map and
a history map of participant records. It evicts idle participants when the
dashboard polls, and at the end of the class it rolls everything up into
per-participant averages, fatigue bands and a class summary, then clears
both maps.

The model has one module per component:

- `Common` (`common.dfy`): `Option`, flag counting, and the integer
  percentage and truncating division the Python code computes through floats.
- `Attention` (`attention.dfy`): the status datatype and `classify_status`.
- `Client` (`client.dfy`): the main loop's state record and its pure
  per-frame transitions. These are closure observation (batch counters, live
  buffer, blink debounce), the alert gate, the report tick, and `Step`,
  which composes them. The frame's EAR, MAR, pitch and yaw are inputs, and
  so is the clock `now`.
- `ClientRuns` (`client_runs.dfy`): runs of frames. It checks the counters,
  the blink count and the live buffer against independent definitions, and
  proves that alerts and reports are spaced in time.
- `SessionStore` (`store.dfy`): `update_student` and both `/students`
  eviction handlers, as transitions on the two maps. Each handler runs under
  the store's lock, so each is one atomic step.
- `SessionRollup` (`rollup.dfy`): `end_class`. Its loop over participants is
  a method with invariants, and the class total is a ghost sum.
- `Reporting` (`reporting.dfy`): the wire encoding of the client's report
  and properties that span both programs.

Four behaviours of the code worth knowing:

- **`/students` is registered twice.** The first registration
  (host_server/server.py:65-79) uses a 10 s threshold and deletes idle
  records. The second (86-103) uses 15 s and moves idle records to the
  history. Routes match in registration order, so the first one is served.
  Eviction takes the threshold as a parameter. `GetStudents` is the served
  handler. `GetStudentsShadowed` is the unreachable one.
- **Running totals are never written.** `end_class` reads `count_samples`
  and `sum_fatigue`, but no handler writes them. Records carry them as an
  `Option` that every transition leaves `None`. So the session average is
  always the last reported fatigue (`AverageIsLastFatigue`,
  `LastReportWins`), not a running mean.
- **The history is only written by the shadowed handler.** As served, the
  history stays empty, so no id is in both maps
  (`ServedHandlersNeverWriteHistory`). With the 15 s handler, a participant
  evicted into the history who then reports again would be in both
  (`LiveAndHistoryCanOverlap`), and the rollup would use the live record.
- **The bands differ.** The rollup's bands (`> 70`, `> 40`) differ from the
  client's (`< 40`, `< 70`) at exactly 40 and 70
  (`BandsDisagreeOnlyAtBoundaries`).

## Model

| member | source | states |
|---|---|---|
| `Attention.Classify` | studentserver/student_server.py:139-149 | Yawning iff yawning. Distracted iff not yawning and abs(yaw) > 25 (abs(yaw) = 25 is not distracted). Otherwise the band: < 40 active, 40..69 passive, >= 70 drowsy. |
| `Attention.ClassifyIgnoresPitch` | studentserver/student_server.py:139-149 | The pitch never changes the status. |
| `Common.Percent` | studentserver/student_server.py:300 | The shared percentage: zero for an empty count, otherwise the floor of 100·part/whole (r·whole <= 100·part < (r+1)·whole), always in [0,100], and 100 when every frame was closed. |
| `Client.LivePerclos` | studentserver/student_server.py:278-280 | The live score is 0 for an empty buffer, otherwise the floor of 100·(closed flags)/(buffer length), in [0,100]. |
| `Client.BatchScore` | studentserver/student_server.py:299-302 | The batch score is 0 when no frame was counted, otherwise the floor of 100·closed/total, in [0,100]. |
| `Common.TruncDiv` | host_server/server.py:119 | `int(a / b)` rounds toward zero: bounds on q·b for either sign of a. |
| `Client.Init` | studentserver/student_server.py:179-183 | The loop starts with empty counters and buffer, a display value of 0 and a last-alert time of 0, so the first alarming frame alerts at once. The report interval starts at the start time. |
| `Client.SignalsOf` | studentserver/student_server.py:201-224 | Without a face, the loop's defaults hold: ear, pitch and yaw are 0 and the frame is not yawning. With a face, the measured values hold, and yawning means a mouth ratio strictly above 0.75. |
| `Client.ObserveFrame` | studentserver/student_server.py:206-242 | A frame without a face adds no closure evidence. A frame with a face is observed as closed iff its eye ratio is below 0.22. |
| `Client.PushWindow` | studentserver/student_server.py:191 | The deque of 300 keeps the last min(n+1, 300) flags of buffer + [flag]. The new flag is last and a full buffer drops its oldest. |
| `Client.ObserveClosure` | studentserver/student_server.py:226-242 | A face frame adds exactly 1 to the total and 1 to the closed count iff it is closed. The run counter grows on a closed frame and resets on an open one. The blink count rises by 1 exactly when an open frame ends a run of >= 3. Timers and the display value are unchanged. |
| `Client.Alert` | studentserver/student_server.py:151-172 | Fires iff the live status is alarming and at least 5 s passed since the last firing. A firing sets the last-alert time to now. Inside the cooldown nothing changes. The last-alert time never decreases. |
| `Client.Tick` | studentserver/student_server.py:297-338 | Reports iff more than 10 s passed since the last attempt. The payload carries the batch score (floor percentage, 0 for an empty batch). It has CLOSED iff ear < 0.22, ROTATED iff abs(yaw) > 25, and the batch-score classification. The tick resets the batch and blink counters, sets the display value and sets last-sent to now whatever the post's fate. Without a tick the state is unchanged. |
| `Client.Step` | studentserver/student_server.py:193-341 | Keeps the loop invariant (closed <= total, buffer <= 300, display <= 100). A no-face frame leaves the buffer, run counter and (without a tick) the counters unchanged. The alert uses the live buffer including this frame. The report counts this frame. |
| `ClientRuns.ObserveAll` | studentserver/student_server.py:226-242 | Any run of face frames keeps the loop invariant. |
| `ClientRuns.ObserveAllCounts` | studentserver/student_server.py:227-232 | After n face frames the total grew by n and the closed count by the number of closed flags. |
| `ClientRuns.ObserveAllDebounce` | studentserver/student_server.py:237-242 | From any state, the blink count grows by the number of open frames whose three predecessors are closed. The run counter is the trailing closed run. Both are counted over the current closed run followed by the new flags. |
| `ClientRuns.BlinkEndsAfterRun` | studentserver/student_server.py:240-241 | An open frame completes a blink iff the closed run before it has length >= 3. |
| `ClientRuns.ObserveAllWindow` | studentserver/student_server.py:235 | From any state, the live buffer is the last 300 flags of the old buffer followed by the run. |
| `ClientRuns.DebounceContinues` | studentserver/student_server.py:237-242 | Debouncing flags that extend a history, starting from that history's trailing closed run, gives the trailing run of the extended history. It adds exactly the blinks completed in the new flags. |
| `ClientRuns.PushAllIsLastN` | studentserver/student_server.py:235 | Pushing flags one at a time onto the bounded deque keeps exactly the last 300 of the old buffer followed by the flags. |
| `ClientRuns.Run` | studentserver/student_server.py:193-341 | Every run of loop iterations keeps the loop invariant. The alert and report clocks never decrease. |
| `ClientRuns.RunClocksMonotone` | studentserver/student_server.py:172 | Along a run, the last-alert and last-sent times never decrease, even if the wall clock does. |
| `ClientRuns.AlertsAreSpaced` | studentserver/student_server.py:151-155 | Any two alerts of one run are at least 5 s apart, so two triggers within 5 s fire once. |
| `ClientRuns.ReportsAreSpaced` | studentserver/student_server.py:297 | Any two reports of one run are more than 10 s apart. |
| `ClientRuns.NoFaceReportsClosedEyes` | studentserver/student_server.py:308-310 | A tick on a frame without a face reports the default EAR 0 as CLOSED eyes, head NORMAL, not yawning. |
| `SessionStore.UpdateStudent` | host_server/server.py:45-60 | Sets the id's live record to the message's fields stamped with server time and no running totals. Every other live id and the whole history are unchanged. |
| `SessionStore.EvictIdle` | host_server/server.py:65-79 | Removes exactly the live records with now - timestamp > threshold (strict). Keeps the rest unchanged and leaves the history alone. |
| `SessionStore.EvictIdleToHistory` | host_server/server.py:86-103 | Removes exactly the idle live records and copies each unchanged into the history. Other history entries are kept, and nothing else enters the history. The union of the two key sets is preserved. |
| `SessionStore.GetStudents` | host_server/server.py:65-79 | The served handler: every record left was refreshed within 10 s, every such record is kept unchanged, nothing else remains, and the history is untouched. |
| `SessionStore.GetStudentsShadowed` | host_server/server.py:86-103 | The shadowed handler. Every record refreshed within 15 s stays live and unchanged. Every older record moves unchanged into the history. Every other history entry is kept, nothing else enters the history, and no id leaves the store. |
| `SessionStore.TransitionsKeepNoRunningTotals` | host_server/server.py:48-59 | No transition writes running totals, so none ever exist. |
| `SessionStore.TransitionsKeepFatigueInRange` | host_server/server.py:48-59 | Stored fatigue stays in [0,100] while reports carry percentages. |
| `SessionStore.EvictionIsIdempotent` | host_server/server.py:72-77 | A second eviction at the same instant changes nothing, for either variant. |
| `SessionStore.LiveAndHistoryCanOverlap` | host_server/server.py:97-100 | Under the shadowed 15 s handler, an id evicted to history and then reporting again is in both maps. |
| `SessionStore.ServedHandlersNeverWriteHistory` | host_server/server.py:48-79 | As served (update and the 10 s `/students`), a store with an empty history keeps it empty, so no id is both live and in the history. |
| `SessionRollup.SessionAverage` | host_server/server.py:116-121 | The mean of the running totals, truncated toward zero for either sign of the sum, when count > 0. Otherwise the last fatigue. |
| `SessionRollup.SessionBand` | host_server/server.py:127-130 | Drowsy iff > 70, passive iff in (40, 70], active iff <= 40. |
| `SessionRollup.BandsDisagreeOnlyAtBoundaries` | host_server/server.py:128-130 | The rollup band differs from the client band exactly at 40 and 70. |
| `SessionRollup.Participants` | host_server/server.py:109 | The merged map has every id of either map, and the live record wins. |
| `SessionRollup.SumAveragesRemove` | host_server/server.py:115-125 | The class total does not depend on the order participants are visited in. |
| `SessionRollup.SumAveragesBounds` | host_server/server.py:124 | With every average in [0,100], the total lies in [0, 100·count]. |
| `SessionRollup.AverageIsLastFatigue` | host_server/server.py:117-121 | Without running totals (always the case), each participant's reported average is its last fatigue. |
| `SessionRollup.RollupEntries` | host_server/server.py:115-136 | One entry per participant (name, band of the average, average), with the total of averages and the count. |
| `SessionRollup.SummaryOf` | host_server/server.py:138-147 | Empty session: average 0, engagement 100, 0 students. Otherwise average·count = total. Engagement is 100 - average, and both lie in [0,100] when the total does. |
| `SessionRollup.EndClass` | host_server/server.py:105-153 | Reports every id of either map (live record winning). total_students is the size of the key union. The class average is the mean of the averages and engagement is 100 minus it. Both maps end empty, so a second call returns the empty summary. |
| `SessionRollup.HistoryEvictionPreservesParticipants` | host_server/server.py:97-100 | Moving idle records to the history changes nothing end_class would report. |
| `SessionRollup.ServedEvictionLosesParticipants` | host_server/server.py:76-77 | The served eviction deletes an idle participant not in the history, so end_class never reports it. |
| `Reporting.ToMetrics` | studentserver/student_server.py:315-325 | The payload's fields map one to one onto the report the server receives. Eyes CLOSED iff closed, YES iff yawning, ROTATED iff rotated. The status is sent under its name. |
| `Reporting.StatusNameInjective` | studentserver/student_server.py:323 | Distinct statuses are sent as distinct strings. |
| `Reporting.ClientReportIngested` | host_server/server.py:48-59 | Ingesting any report the client engine emits keeps the store invariants. The rollup then reports that fatigue as the participant's average, banded by the rollup's bands. |
| `Reporting.TwoParticipantExample` | host_server/server.py:139-147 | Reports 30,30,30 and 80,80 give two participants and a class average of 55. |
| `Reporting.LastReportWins` | host_server/server.py:118-121 | Reports 30 then 50 give a session average of 50, not the mean 40. |

## Left out

- Camera capture, the face mesh, drawing, `imshow`, the `q` key and the
  loop's exit on a failed read (studentserver/student_server.py:177, 194-199,
  244-268, 286-287, 292, 340-344) are I/O and UI. The head direction string
  (245-247) is only drawn. Each frame is an input: no face, or a face with
  its measured values.
- The EAR, MAR and head-pose geometry (`euclidean`, `eye_aspect_ratio`,
  `mouth_aspect_ratio`, `get_head_pose`, lines 64-137) are float norms and
  OpenCV calls. EAR, MAR, pitch and yaw are inputs.
- The sound dispatch in `trigger_alert` (lines 157-170) is left out; only the
  cooldown gate is modelled. The client never imports `os`, so every
  `os.system` call (lines 160, 166, 168) raises a `NameError` that line 169
  swallows. On macOS and Linux no sound plays. On Windows `winsound.Beep`
  (line 164) plays before line 166 raises. The cooldown stamp at line 172 is
  set in every case, which is what `Client.Alert` models.
- The HTTP post, its 1 s timeout and its outcome are left out. The source
  discards the outcome (lines 327-331), so the tick does not depend on it.
- The server's routing and pydantic parsing, the JSON responses, the
  dashboard page (host_server/server.py:34-40) and the `uvicorn` start
  (155-157) are transport. host_server/dashboard/app.js is display code.
- The lock is left out: each handler is one atomic transition, with no
  concurrency modelled.
- The operator prompts and the uuid-based id (studentserver/student_server.py:13-17)
  are left out. The id and name are the `Identity` parameter.
- The clock is read once per loop iteration in the model. The source reads it
  separately for the alert gate, the alert stamp, the send check, the payload
  timestamp and the last-sent stamp (lines 154, 172, 297, 324, 338).
- `Common.Percent`: the source computes `int((a / b) * 100)` in floating
  point, which can be one below the exact floor (for example 29/100). The
  model uses the exact integer floor.
- `SessionRollup.SummaryOf`: the source rounds the class average to one
  decimal with `round(x, 1)` (host_server/server.py:141). The model keeps
  the exact real mean, and engagement is 100 minus that exact mean.
- `SessionRollup.EndClass`: the same `round(x, 1)` gap; the class average is
  stated as the exact real mean.
- `SessionRollup.SessionAverage`: the `elif "fatigue" in data` test and its
  default of 0 (host_server/server.py:117, 120) cannot fail, because every
  stored record has a fatigue. The model has no record without one.
- The unused `pitch_threshold` and `yawn_counter` (studentserver/student_server.py:32, 182)
  and the console prints are left out.

=== FILE: attention.dfy ===
/** The attention states a participant can be in, and the client's status
    classifier (`classify_status` in studentserver/student_server.py). */
module Attention {

  datatype Status = Active | Passive | Drowsy | Distracted | Yawning

  /** Head yaw, in degrees, beyond which a participant counts as looking away. */
  const YawThreshold: real := 25.0

  function Abs(x: real): real
  {
    if x < 0.0 then -x else x
  }

  /** The states the client raises a local alert for. */
  predicate IsAlarming(st: Status)
  {
    st == Distracted || st == Drowsy || st == Yawning
  }

  /** The client's fatigue bands: below 40 active, below 70 passive, else drowsy. */
  function FatigueBand(perclos: int): Status
  {
    if perclos < 40 then Active
    else if perclos < 70 then Passive
    else Drowsy
  }

  /** First match wins: yawning, then a head turned more than 25 degrees
      either way, then the fatigue bands. The pitch is accepted and ignored. */
  function Classify(perclos: int, isYawning: bool, yaw: real, pitch: real): (st: Status)
    ensures st == Yawning <==> isYawning
    ensures st == Distracted <==> !isYawning && Abs(yaw) > YawThreshold
    ensures st == Active <==> !isYawning && Abs(yaw) <= YawThreshold && perclos < 40
    ensures st == Passive <==> !isYawning && Abs(yaw) <= YawThreshold && 40 <= perclos < 70
    ensures st == Drowsy <==> !isYawning && Abs(yaw) <= YawThreshold && 70 <= perclos
  {
    if isYawning then Yawning
    else if Abs(yaw) > YawThreshold then Distracted
    else FatigueBand(perclos)
  }

  /** The pitch never changes the classification. */
  lemma ClassifyIgnoresPitch(perclos: int, isYawning: bool, yaw: real, pitch1: real, pitch2: real)
    ensures Classify(perclos, isYawning, yaw, pitch1) == Classify(perclos, isYawning, yaw, pitch2)
  {
  }
}

=== FILE: client.dfy ===
/** The per-frame engine of the participant client
    (the main loop of studentserver/student_server.py) as pure transitions.

    The camera, the face-mesh landmarks and the EAR/MAR/head-pose geometry
    are outside the model: each frame arrives either without a face or with
    its eye aspect ratio, mouth aspect ratio, pitch and yaw already measured.
    The wall clock is a parameter `now`, in seconds. */
module Client {
  import opened Common
  import opened Attention

  /** Eye aspect ratio below which the eyes count as closed. */
  const EarThreshold: real := 0.22
  /** Mouth aspect ratio above which the participant counts as yawning. */
  const MarThreshold: real := 0.75
  /** Consecutive closed frames needed before reopening counts as a blink. */
  const BlinkConsecFrames: nat := 3
  /** Seconds between two reports to the session server. */
  const SendInterval: real := 10.0
  /** Seconds the local alert stays silent after it fired. */
  const AlertCooldown: real := 5.0
  /** Capacity of the live smoothing buffer (about 10 s at 30 frames/s). */
  const LiveWindow: nat := 300

  datatype Frame = NoFace | Face(ear: real, mar: real, pitch: real, yaw: real)

  /** What the rest of the loop reads from a frame; a frame without a face
      leaves the loop's defaults in place (all zero, not yawning). */
  datatype Signals = Signals(ear: real, isYawning: bool, pitch: real, yaw: real)

  datatype Identity = Identity(studentId: string, studentName: string)

  /** The report posted to the session server every interval. */
  datatype Payload = Payload(
    studentId: string,
    studentName: string,
    ear: real,
    eyeClosed: bool,
    fatigue: nat,
    yawning: bool,
    headRotated: bool,
    status: Status,
    timestamp: real)

  /** The loop's mutable globals. `frameCounter` is the length of the current
      run of closed frames; `liveBuffer` holds the most recent closure flags,
      oldest first. */
  datatype ClientState = ClientState(
    batchClosed: nat,
    batchTotal: nat,
    frameCounter: nat,
    blinkCount: nat,
    liveBuffer: seq<bool>,
    lastSpeechTime: real,
    lastSent: real,
    displayPerclos: nat)

  datatype StepOutput = StepOutput(state: ClientState, alerted: bool, report: Option<Payload>)

  /** The invariant the loop keeps between frames. */
  predicate Valid(s: ClientState)
  {
    && s.batchClosed <= s.batchTotal
    && |s.liveBuffer| <= LiveWindow
    && s.displayPerclos <= 100
  }

  /** The state before the first frame: the alert has never fired and the
      report interval starts at process start. */
  function Init(startTime: real): (s: ClientState)
    ensures Valid(s)
    ensures s.batchTotal == 0 && s.blinkCount == 0 && s.frameCounter == 0 && s.liveBuffer == []
    ensures s.lastSent == startTime
    ensures s.lastSpeechTime == 0.0 && s.displayPerclos == 0
  {
    ClientState(0, 0, 0, 0, [], 0.0, startTime, 0)
  }

  /** The signals of a frame: the loop's defaults without a face, otherwise
      the measured values, yawning iff the mouth ratio is strictly above 0.75. */
  function SignalsOf(f: Frame): (r: Signals)
    ensures r.isYawning <==> f.Face? && f.mar > MarThreshold
    ensures f.NoFace? ==> r == Signals(0.0, false, 0.0, 0.0)
    ensures f.Face? ==> r.ear == f.ear && r.yaw == f.yaw && r.pitch == f.pitch
  {
    match f
    case NoFace => Signals(0.0, false, 0.0, 0.0)
    case Face(ear, mar, pitch, yaw) => Signals(ear, mar > MarThreshold, pitch, yaw)
  }

  predicate IsClosed(ear: real)
  {
    ear < EarThreshold
  }

  /** The last `n` elements of `xs` (all of them when there are fewer). */
  function LastN<T>(xs: seq<T>, n: nat): seq<T>
  {
    xs[|xs| - Min(|xs|, n)..]
  }

  /** Appending to the bounded deque: a full buffer drops its oldest flag. */
  function PushWindow(buf: seq<bool>, closed: bool): (w: seq<bool>)
    requires |buf| <= LiveWindow
    ensures w == LastN(buf + [closed], LiveWindow)
    ensures |w| == Min(|buf| + 1, LiveWindow) && w[|w| - 1] == closed
  {
    if |buf| == LiveWindow then buf[1..] + [closed] else buf + [closed]
  }

  /** The blink debounce on one frame with a face: (run length, blink count). */
  function Debounce(frameCounter: nat, blinkCount: nat, closed: bool): (nat, nat)
  {
    if closed then (frameCounter + 1, blinkCount)
    else if frameCounter >= BlinkConsecFrames then (0, blinkCount + 1)
    else (0, blinkCount)
  }

  /** Everything a frame with a face does to the closure evidence: the batch
      counters, the live buffer and the blink debounce. */
  function ObserveClosure(s: ClientState, closed: bool): (t: ClientState)
    requires Valid(s)
    ensures Valid(t)
    ensures t.batchTotal == s.batchTotal + 1
    ensures t.batchClosed == s.batchClosed + (if closed then 1 else 0)
    ensures t.liveBuffer == LastN(s.liveBuffer + [closed], LiveWindow)
    ensures closed ==> t.frameCounter == s.frameCounter + 1 && t.blinkCount == s.blinkCount
    ensures !closed ==> t.frameCounter == 0
    ensures !closed ==> (t.blinkCount == s.blinkCount + 1 <==> s.frameCounter >= BlinkConsecFrames)
    ensures t.blinkCount == s.blinkCount || t.blinkCount == s.blinkCount + 1
    ensures t.lastSpeechTime == s.lastSpeechTime && t.lastSent == s.lastSent
    ensures t.displayPerclos == s.displayPerclos
  {
    var (run, blinks) := Debounce(s.frameCounter, s.blinkCount, closed);
    s.(batchTotal := s.batchTotal + 1,
       batchClosed := if closed then s.batchClosed + 1 else s.batchClosed,
       liveBuffer := PushWindow(s.liveBuffer, closed),
       frameCounter := run,
       blinkCount := blinks)
  }

  /** Only a frame with a face adds closure evidence; it is closed iff its
      eye ratio is below 0.22. */
  function ObserveFrame(s: ClientState, f: Frame): (t: ClientState)
    requires Valid(s)
    ensures Valid(t)
    ensures f.NoFace? ==> t == s
    ensures f.Face? ==> t == ObserveClosure(s, f.ear < EarThreshold)
  {
    if f.NoFace? then s else ObserveClosure(s, IsClosed(f.ear))
  }

  /** The smoothed closure percentage over the live buffer. */
  function LivePerclos(buf: seq<bool>): (r: nat)
    ensures r <= 100
    ensures |buf| == 0 ==> r == 0
    ensures |buf| > 0 ==> r * |buf| <= 100 * CountTrue(buf) < (r + 1) * |buf|
  {
    Percent(CountTrue(buf), |buf|)
  }

  /** The status the local alert looks at: live buffer, current frame's signals. */
  function LiveStatus(s: ClientState, sig: Signals): Status
  {
    Classify(LivePerclos(s.liveBuffer), sig.isYawning, sig.yaw, sig.pitch)
  }

  /** The alert gate: an alarming live status fires the alert unless it fired
      less than 5 s ago; a firing restarts the cooldown, a dropped trigger
      changes nothing. */
  function Alert(s: ClientState, live: Status, now: real): (r: (bool, ClientState))
    ensures r.0 <==> IsAlarming(live) && now - s.lastSpeechTime >= AlertCooldown
    ensures r.1 == s.(lastSpeechTime := if r.0 then now else s.lastSpeechTime)
    ensures r.1.lastSpeechTime >= s.lastSpeechTime
  {
    if IsAlarming(live) && !(now - s.lastSpeechTime < AlertCooldown) then
      (true, s.(lastSpeechTime := now))
    else
      (false, s)
  }

  /** The PERCLOS score of the batch since the last report. */
  function BatchScore(s: ClientState): (r: nat)
    requires Valid(s)
    ensures r <= 100
    ensures s.batchTotal == 0 ==> r == 0
    ensures s.batchTotal > 0 ==> r * s.batchTotal <= 100 * s.batchClosed < (r + 1) * s.batchTotal
  {
    Percent(s.batchClosed, s.batchTotal)
  }

  /** The report tick: once more than 10 s passed since the last attempt, build
      the payload from the batch score and the current frame's signals, then
      reset the batch and the blink count. The post's outcome is discarded by
      the source, so it is no input here: the reset happens in every case. */
  function Tick(s: ClientState, sig: Signals, who: Identity, now: real): (r: (ClientState, Option<Payload>))
    requires Valid(s)
    ensures Valid(r.0)
    ensures r.1.Some? <==> now - s.lastSent > SendInterval
    ensures r.1.None? ==> r.0 == s
    ensures r.1.Some? ==>
      && r.0.batchTotal == 0 && r.0.batchClosed == 0 && r.0.blinkCount == 0
      && r.0.lastSent == now && r.0.lastSent > s.lastSent
      && r.0.displayPerclos == r.1.value.fatigue
      && r.0.frameCounter == s.frameCounter && r.0.liveBuffer == s.liveBuffer
      && r.0.lastSpeechTime == s.lastSpeechTime
    ensures r.1.Some? ==>
      var p := r.1.value;
      && p.studentId == who.studentId && p.studentName == who.studentName
      && p.ear == sig.ear && p.timestamp == now
      && p.fatigue <= 100
      && (s.batchTotal == 0 ==> p.fatigue == 0)
      && (s.batchTotal > 0 ==> p.fatigue * s.batchTotal <= 100 * s.batchClosed < (p.fatigue + 1) * s.batchTotal)
      && (p.eyeClosed <==> sig.ear < EarThreshold)
      && p.yawning == sig.isYawning
      && (p.headRotated <==> Abs(sig.yaw) > YawThreshold)
      && p.status == Classify(p.fatigue, sig.isYawning, sig.yaw, sig.pitch)
  {
    if now - s.lastSent > SendInterval then
      var score := BatchScore(s);
      var payload := Payload(
        who.studentId, who.studentName, sig.ear,
        IsClosed(sig.ear), score, sig.isYawning, Abs(sig.yaw) > YawThreshold,
        Classify(score, sig.isYawning, sig.yaw, sig.pitch), now);
      var t := s.(displayPerclos := score, blinkCount := 0,
                  batchTotal := 0, batchClosed := 0, lastSent := now);
      (t, Some(payload))
    else
      (s, None)
  }

  /** One iteration of the main loop: observe the frame, maybe alert, maybe report. */
  function Step(s: ClientState, who: Identity, f: Frame, now: real): (out: StepOutput)
    requires Valid(s)
    ensures Valid(out.state)
    // a frame without a face adds no closure evidence
    ensures f.NoFace? ==>
      out.state.liveBuffer == s.liveBuffer && out.state.frameCounter == s.frameCounter
    ensures f.NoFace? && out.report.None? ==>
      && out.state.batchTotal == s.batchTotal && out.state.batchClosed == s.batchClosed
      && out.state.blinkCount == s.blinkCount
    // a frame with a face is counted once, as closed iff its EAR is below 0.22
    ensures f.Face? && out.report.None? ==>
      && out.state.batchTotal == s.batchTotal + 1
      && out.state.batchClosed == s.batchClosed + (if f.ear < EarThreshold then 1 else 0)
    ensures f.Face? ==>
      out.state.liveBuffer == LastN(s.liveBuffer + [f.ear < EarThreshold], LiveWindow)
    // the alert gate reads the live buffer after this frame was added
    ensures out.alerted <==>
      IsAlarming(LiveStatus(ObserveFrame(s, f), SignalsOf(f))) && now - s.lastSpeechTime >= AlertCooldown
    ensures out.state.lastSpeechTime == (if out.alerted then now else s.lastSpeechTime)
    // the report tick, which counts this frame in the batch it reports
    ensures out.report.Some? <==> now - s.lastSent > SendInterval
    ensures out.report.Some? ==>
      var o := ObserveFrame(s, f);
      && out.report.value.fatigue == Percent(o.batchClosed, o.batchTotal)
      && out.state.displayPerclos == out.report.value.fatigue
      && out.state.batchTotal == 0 && out.state.batchClosed == 0 && out.state.blinkCount == 0
      && out.state.lastSent == now
    ensures out.report.None? ==>
      out.state.lastSent == s.lastSent && out.state.displayPerclos == s.displayPerclos
  {
    var sig := SignalsOf(f);
    var observed := ObserveFrame(s, f);
    var (alerted, afterAlert) := Alert(observed, LiveStatus(observed, sig), now);
    var (next, report) := Tick(afterAlert, sig, who, now);
    StepOutput(next, alerted, report)
  }
}

=== FILE: client_runs.dfy ===
/** Properties of the client engine over whole runs of frames: the batch
    counters, blink count and live buffer against independent definitions,
    and the spacing of alerts and reports. */
module ClientRuns {
  import opened Common
  import opened Attention
  import opened Client

  // ---------------------------------------------------------------------
  // Closure evidence over a run of frames with a face
  // ---------------------------------------------------------------------

  /** Length of the run of closed frames at the end of `flags`. */
  function TrailingClosed(flags: seq<bool>): nat
  {
    if |flags| == 0 || !flags[|flags| - 1] then 0
    else 1 + TrailingClosed(flags[..|flags| - 1])
  }

  /** Frame `i` completes a blink: it is open and the three frames before it
      are closed. */
  predicate BlinkEndsAt(flags: seq<bool>, i: nat)
    requires i < |flags|
  {
    i >= 3 && !flags[i] && flags[i - 1] && flags[i - 2] && flags[i - 3]
  }

  /** Number of frames that complete a blink. */
  function CountBlinkEnds(flags: seq<bool>): nat
  {
    if |flags| == 0 then 0
    else CountBlinkEnds(flags[..|flags| - 1]) + (if BlinkEndsAt(flags, |flags| - 1) then 1 else 0)
  }

  /** The client state after frames with a face whose closure flags are `flags`. */
  function ObserveAll(s: ClientState, flags: seq<bool>): (t: ClientState)
    requires Valid(s)
    ensures Valid(t)
    ensures t.lastSpeechTime == s.lastSpeechTime && t.lastSent == s.lastSent
    decreases |flags|
  {
    if |flags| == 0 then s
    else ObserveClosure(ObserveAll(s, flags[..|flags| - 1]), flags[|flags| - 1])
  }

  lemma {:induction false} TrailingClosedAtLeastThree(flags: seq<bool>)
    ensures TrailingClosed(flags) >= 3 <==>
      |flags| >= 3 && flags[|flags| - 1] && flags[|flags| - 2] && flags[|flags| - 3]
  {
    var n := |flags|;
    if n >= 1 && flags[n - 1] {
      var p1 := flags[..n - 1];
      assert TrailingClosed(flags) == 1 + TrailingClosed(p1);
      if n >= 2 && p1[n - 2] {
        var p2 := p1[..n - 2];
        assert p2 == flags[..n - 2];
        assert TrailingClosed(p1) == 1 + TrailingClosed(p2);
        if n >= 3 && p2[n - 3] {
          assert TrailingClosed(p2) == 1 + TrailingClosed(p2[..n - 3]);
        }
      }
    }
  }

  lemma LastNPush<T>(xs: seq<T>, x: T, n: nat)
    requires n > 0
    ensures LastN(LastN(xs, n) + [x], n) == LastN(xs + [x], n)
  {
  }

  lemma {:induction false} ObserveAllCounts(s: ClientState, flags: seq<bool>)
    requires Valid(s)
    ensures ObserveAll(s, flags).batchTotal == s.batchTotal + |flags|
    ensures ObserveAll(s, flags).batchClosed == s.batchClosed + CountTrue(flags)
    decreases |flags|
  {
    if |flags| > 0 {
      ObserveAllCounts(s, flags[..|flags| - 1]);
    }
  }

  /** A run of `r` closed frames. */
  function AllClosed(r: nat): (flags: seq<bool>)
    ensures |flags| == r
  {
    seq(r, _ => true)
  }

  lemma {:induction false} AllClosedRun(r: nat)
    ensures CountBlinkEnds(AllClosed(r)) == 0
    ensures TrailingClosed(AllClosed(r)) == r
  {
    if r > 0 {
      assert AllClosed(r)[..r - 1] == AllClosed(r - 1);
      AllClosedRun(r - 1);
    }
  }

  /** One debounce step against the flag history it extends. */
  lemma DebounceStep(hinit: seq<bool>, x: bool, run: nat, blinks: nat)
    requires run == TrailingClosed(hinit)
    ensures Debounce(run, blinks, x).0 == TrailingClosed(hinit + [x])
    ensures Debounce(run, blinks, x).1 + CountBlinkEnds(hinit) == blinks + CountBlinkEnds(hinit + [x])
  {
    var h := hinit + [x];
    assert h[..|h| - 1] == hinit;
    BlinkEndsAfterRun(h);
  }

  /** The debounce applied to `flags` one by one: (run length, blink count). */
  function DebounceAll(run: nat, blinks: nat, flags: seq<bool>): (nat, nat)
    decreases |flags|
  {
    if |flags| == 0 then (run, blinks)
    else
      var (r, b) := DebounceAll(run, blinks, flags[..|flags| - 1]);
      Debounce(r, b, flags[|flags| - 1])
  }

  lemma {:induction false} ObserveAllIsDebounceAll(s: ClientState, flags: seq<bool>)
    requires Valid(s)
    ensures (ObserveAll(s, flags).frameCounter, ObserveAll(s, flags).blinkCount)
      == DebounceAll(s.frameCounter, s.blinkCount, flags)
    decreases |flags|
  {
    if |flags| > 0 {
      ObserveAllIsDebounceAll(s, flags[..|flags| - 1]);
    }
  }

  /** The debounce over flags that continue a history `pre` whose trailing
      closed run is the starting run length. */
  lemma {:induction false} DebounceContinues(pre: seq<bool>, blinks: nat, flags: seq<bool>)
    ensures DebounceAll(TrailingClosed(pre), blinks, flags).0 == TrailingClosed(pre + flags)
    ensures DebounceAll(TrailingClosed(pre), blinks, flags).1 + CountBlinkEnds(pre)
      == blinks + CountBlinkEnds(pre + flags)
    decreases |flags|
  {
    if |flags| == 0 {
      assert pre + flags == pre;
    } else {
      var init := flags[..|flags| - 1];
      var x := flags[|flags| - 1];
      DebounceContinues(pre, blinks, init);
      var (r, b) := DebounceAll(TrailingClosed(pre), blinks, init);
      assert (pre + init) + [x] == pre + flags;
      DebounceStep(pre + init, x, r, b);
    }
  }

  /** The debounce over a run of face frames, from any state: the open run of
      closed frames counts as history, so the blink count grows by the
      number of frames completing a blink, and the run counter is the trailing
      closed run, of that history followed by the new flags. */
  lemma ObserveAllDebounce(s: ClientState, flags: seq<bool>)
    requires Valid(s)
    ensures var h := AllClosed(s.frameCounter) + flags;
      && ObserveAll(s, flags).blinkCount == s.blinkCount + CountBlinkEnds(h)
      && ObserveAll(s, flags).frameCounter == TrailingClosed(h)
  {
    AllClosedRun(s.frameCounter);
    ObserveAllIsDebounceAll(s, flags);
    DebounceContinues(AllClosed(s.frameCounter), s.blinkCount, flags);
  }

  /** The last frame completes a blink iff it is open and the closed run
      before it is at least three frames long. */
  lemma {:induction false} BlinkEndsAfterRun(flags: seq<bool>)
    requires |flags| > 0
    ensures var n := |flags|;
      BlinkEndsAt(flags, n - 1) <==> !flags[n - 1] && TrailingClosed(flags[..n - 1]) >= 3
  {
    var n := |flags|;
    var init := flags[..n - 1];
    TrailingClosedAtLeastThree(init);
    if n >= 4 {
      assert init[n - 2] == flags[n - 2] && init[n - 3] == flags[n - 3] && init[n - 4] == flags[n - 4];
    }
  }

  /** The live buffer after pushing `flags` one by one. */
  function PushAll(buf: seq<bool>, flags: seq<bool>): (w: seq<bool>)
    requires |buf| <= LiveWindow
    ensures |w| <= LiveWindow
    decreases |flags|
  {
    if |flags| == 0 then buf
    else PushWindow(PushAll(buf, flags[..|flags| - 1]), flags[|flags| - 1])
  }

  /** Pushing flags one by one keeps the last 300 of the old buffer followed
      by the flags. */
  lemma {:induction false} PushAllIsLastN(buf: seq<bool>, flags: seq<bool>)
    requires |buf| <= LiveWindow
    ensures PushAll(buf, flags) == LastN(buf + flags, LiveWindow)
    decreases |flags|
  {
    if |flags| == 0 {
      assert buf + flags == buf;
    } else {
      var init := flags[..|flags| - 1];
      var x := flags[|flags| - 1];
      PushAllIsLastN(buf, init);
      assert (buf + init) + [x] == buf + flags;
      LastNPush(buf + init, x, LiveWindow);
    }
  }

  lemma {:induction false} ObserveAllPushes(s: ClientState, flags: seq<bool>)
    requires Valid(s)
    ensures ObserveAll(s, flags).liveBuffer == PushAll(s.liveBuffer, flags)
    decreases |flags|
  {
    if |flags| > 0 {
      ObserveAllPushes(s, flags[..|flags| - 1]);
    }
  }

  /** The live buffer after a run of face frames holds the last 300 flags of
      the old buffer followed by the run. */
  lemma ObserveAllWindow(s: ClientState, flags: seq<bool>)
    requires Valid(s)
    ensures ObserveAll(s, flags).liveBuffer == LastN(s.liveBuffer + flags, LiveWindow)
  {
    ObserveAllPushes(s, flags);
    PushAllIsLastN(s.liveBuffer, flags);
  }

  // ---------------------------------------------------------------------
  // Runs of loop iterations
  // ---------------------------------------------------------------------

  datatype Input = Input(frame: Frame, now: real)

  /** The state after the loop processed `inputs` in order. */
  function Run(s: ClientState, who: Identity, inputs: seq<Input>): (t: ClientState)
    requires Valid(s)
    ensures Valid(t)
    ensures t.lastSpeechTime >= s.lastSpeechTime && t.lastSent >= s.lastSent
    decreases |inputs|
  {
    if |inputs| == 0 then s
    else
      var last := inputs[|inputs| - 1];
      Step(Run(s, who, inputs[..|inputs| - 1]), who, last.frame, last.now).state
  }

  /** The output of the `i`-th iteration. */
  function OutputAt(s: ClientState, who: Identity, inputs: seq<Input>, i: nat): StepOutput
    requires Valid(s) && i < |inputs|
  {
    Step(Run(s, who, inputs[..i]), who, inputs[i].frame, inputs[i].now)
  }

  lemma {:induction false} RunPrefixStep(s: ClientState, who: Identity, inputs: seq<Input>, i: nat)
    requires Valid(s) && i < |inputs|
    ensures Run(s, who, inputs[..i + 1]) == OutputAt(s, who, inputs, i).state
  {
    assert inputs[..i + 1][..i] == inputs[..i];
  }

  /** The alert and report clocks never move backwards along a run, whatever
      the wall clock does: each is only ever set to a later time. */
  lemma {:induction false} RunClocksMonotone(s: ClientState, who: Identity, inputs: seq<Input>, i: nat, j: nat)
    requires Valid(s) && i <= j <= |inputs|
    ensures Run(s, who, inputs[..i]).lastSpeechTime <= Run(s, who, inputs[..j]).lastSpeechTime
    ensures Run(s, who, inputs[..i]).lastSent <= Run(s, who, inputs[..j]).lastSent
    decreases j - i
  {
    if i < j {
      RunClocksMonotone(s, who, inputs, i + 1, j);
      RunPrefixStep(s, who, inputs, i);
    }
  }

  /** Two alerts of one run are at least 5 s apart. */
  lemma AlertsAreSpaced(s: ClientState, who: Identity, inputs: seq<Input>, i: nat, j: nat)
    requires Valid(s) && i < j < |inputs|
    ensures OutputAt(s, who, inputs, i).alerted && OutputAt(s, who, inputs, j).alerted ==>
      inputs[j].now - inputs[i].now >= AlertCooldown
  {
    if OutputAt(s, who, inputs, i).alerted && OutputAt(s, who, inputs, j).alerted {
      RunPrefixStep(s, who, inputs, i);
      RunClocksMonotone(s, who, inputs, i + 1, j);
      var before := Run(s, who, inputs[..j]);
      assert before.lastSpeechTime >= inputs[i].now;
      assert inputs[j].now - before.lastSpeechTime >= AlertCooldown;
    }
  }

  /** Two reports of one run are more than 10 s apart. */
  lemma ReportsAreSpaced(s: ClientState, who: Identity, inputs: seq<Input>, i: nat, j: nat)
    requires Valid(s) && i < j < |inputs|
    ensures OutputAt(s, who, inputs, i).report.Some? && OutputAt(s, who, inputs, j).report.Some? ==>
      inputs[j].now - inputs[i].now > SendInterval
  {
    if OutputAt(s, who, inputs, i).report.Some? && OutputAt(s, who, inputs, j).report.Some? {
      RunPrefixStep(s, who, inputs, i);
      RunClocksMonotone(s, who, inputs, i + 1, j);
      var before := Run(s, who, inputs[..j]);
      assert before.lastSent >= inputs[i].now;
      assert inputs[j].now - before.lastSent > SendInterval;
    }
  }

  /** At a report tick on a frame without a face, the loop's default EAR of 0
      is reported: the eyes are reported closed and the head not rotated. */
  lemma NoFaceReportsClosedEyes(s: ClientState, who: Identity, now: real)
    requires Valid(s) && now - s.lastSent > SendInterval
    ensures var out := Step(s, who, NoFace, now);
      && out.report.Some?
      && out.report.value.eyeClosed
      && !out.report.value.headRotated && !out.report.value.yawning
      && out.report.value.fatigue == BatchScore(s)
  {
  }
}

=== FILE: common.dfy ===
/** Small helpers shared by the client engine and the session server: an
    optional value, counting flags, and the two integer divisions the
    Python code performs through float arithmetic. */
module Common {

  datatype Option<+T> = None | Some(value: T)

  function Min(a: nat, b: nat): nat
  {
    if a <= b then a else b
  }

  /** Number of `true` entries, counted from the front of the sequence. */
  function CountTrue(flags: seq<bool>): (n: nat)
    ensures n <= |flags|
    ensures n == |flags| <==> forall i :: 0 <= i < |flags| ==> flags[i]
  {
    if |flags| == 0 then 0
    else
      var init := flags[..|flags| - 1];
      assert forall i :: 0 <= i < |init| ==> init[i] == flags[i];
      CountTrue(init) + (if flags[|flags| - 1] then 1 else 0)
  }

  /** The integer percentage `int((part / whole) * 100)` for non-negative
      counts, and 0 when there is nothing to count. The result is the floor
      of the exact ratio, so it always lies in [0, 100]. */
  function Percent(part: nat, whole: nat): (r: nat)
    requires part <= whole
    ensures r <= 100
    ensures whole == 0 ==> r == 0
    ensures whole > 0 ==> r * whole <= 100 * part < (r + 1) * whole
    ensures whole > 0 && part == whole ==> r == 100
  {
    if whole == 0 then 0
    else
      var r := (100 * part) / whole;
      DivisionBounds(100 * part, whole);
      MulMonotone(part, whole, 100);
      assert r <= 100 by {
        if r > 100 { MulMonotone(101, r, whole); }
      }
      assert part == whole ==> r == 100 by {
        if part == whole && r < 100 { MulMonotone(r + 1, 100, whole); }
      }
      r
  }

  lemma DivisionBounds(n: nat, d: nat)
    requires d > 0
    ensures 0 <= n / d
    ensures (n / d) * d <= n < (n / d + 1) * d
  {
  }

  lemma MulMonotone(a: int, b: int, c: nat)
    requires a <= b
    ensures a * c <= b * c
  {
  }

  /** Python's `int(a / b)` for a positive divisor: the quotient rounded
      toward zero (unlike Dafny's `/`, which rounds toward minus infinity
      for a negative dividend). */
  function TruncDiv(a: int, b: int): (q: int)
    requires b > 0
    ensures a >= 0 ==> 0 <= q && q * b <= a < (q + 1) * b
    ensures a < 0 ==> q <= 0 && (q - 1) * b < a <= q * b
  {
    if a >= 0 then
      var q := a / b;
      DivisionBounds(a, b);
      assert q * b <= a < (q + 1) * b;
      q
    else
      var k := (-a) / b;
      NegatedDivisionBounds(-a, b);
      assert (-k - 1) * b < a <= -k * b;
      -k
  }

  lemma NegatedDivisionBounds(n: int, d: int)
    requires n >= 0 && d > 0
    ensures (-(n / d) - 1) * d < -n <= -(n / d) * d
  {
  }
}

=== FILE: reporting.dfy ===
/** The wire between the two programs: the client's report encoded as the
    JSON fields the server's `update_student` receives, and properties that
    need both sides. */
module Reporting {
  import opened Attention
  import Client
  import opened SessionStore
  import opened SessionRollup

  function StatusName(st: Status): string
  {
    match st
    case Active => "ACTIVE"
    case Passive => "PASSIVE"
    case Drowsy => "DROWSY"
    case Distracted => "DISTRACTED"
    case Yawning => "YAWNING"
  }

  /** The payload dictionary the client posts, field by field. */
  function ToMetrics(p: Client.Payload): (m: Metrics)
    ensures m.studentId == p.studentId && m.studentName == p.studentName
    ensures m.fatigue == p.fatigue && m.ear == p.ear && m.timestamp == p.timestamp
    ensures m.eyeStatus in {"CLOSED", "OPEN"} && (m.eyeStatus == "CLOSED" <==> p.eyeClosed)
    ensures m.yawningStatus in {"YES", "NO"} && (m.yawningStatus == "YES" <==> p.yawning)
    ensures m.headStatus in {"ROTATED", "NORMAL"} && (m.headStatus == "ROTATED" <==> p.headRotated)
    ensures m.status == StatusName(p.status)
  {
    Metrics(
      p.studentId, p.studentName, p.ear,
      if p.eyeClosed then "CLOSED" else "OPEN",
      p.fatigue,
      if p.yawning then "YES" else "NO",
      if p.headRotated then "ROTATED" else "NORMAL",
      StatusName(p.status),
      p.timestamp)
  }

  /** Distinct statuses are sent as distinct strings. */
  lemma {:induction false} StatusNameInjective(a: Status, b: Status)
    ensures StatusName(a) == StatusName(b) <==> a == b
  {
  }

  /** Ingesting any report the client engine produces keeps the store's
      invariants, and the rollup will report that participant with the
      reported fatigue as its session average. */
  lemma ClientReportIngested(cs: Client.ClientState, who: Client.Identity, f: Client.Frame, t: real,
                             st: Store, now: real)
    requires Client.Valid(cs) && NoRunningTotals(st) && FatigueInRange(st)
    requires t - cs.lastSent > Client.SendInterval
    ensures Client.Step(cs, who, f, t).report.Some?
    ensures var p := Client.Step(cs, who, f, t).report.value;
      var after := UpdateStudent(st, ToMetrics(p), now);
      && NoRunningTotals(after) && FatigueInRange(after)
      && who.studentId in Participants(after)
      && EntryOf(Participants(after)[who.studentId]).fatigue == p.fatigue
      && EntryOf(Participants(after)[who.studentId]).status == SessionBand(p.fatigue)
  {
    var p := Client.Step(cs, who, f, t).report.value;
    assert p.studentId == who.studentId && p.fatigue <= 100;
    var m := ToMetrics(p);
    var after := UpdateStudent(st, m, now);
    TransitionsKeepNoRunningTotals(st, m, now, 0.0);
    TransitionsKeepFatigueInRange(st, m, now, 0.0);
    var rec := after.students[who.studentId];
    assert rec.samples.None? && rec.fatigue == p.fatigue;
    assert Participants(after)[who.studentId] == rec;
  }

  /** An example at session end: fatigue reports 30, 30, 30 from one participant
      and 80, 80 from another give a class average of 55 over two
      participants. */
  lemma {:induction false} TwoParticipantExample(a: Metrics, b: Metrics)
    requires a.studentId != b.studentId && a.fatigue == 30 && b.fatigue == 80
    ensures var st := UpdateStudent(UpdateStudent(UpdateStudent(UpdateStudent(UpdateStudent(
              EmptyStore(), a, 1.0), b, 2.0), a, 11.0), b, 12.0), a, 21.0);
      && |Participants(st).Keys| == 2
      && ClassAverage(Participants(st)) == 55.0
  {
    var s1 := UpdateStudent(EmptyStore(), a, 1.0);
    var s2 := UpdateStudent(s1, b, 2.0);
    var s3 := UpdateStudent(s2, a, 11.0);
    var s4 := UpdateStudent(s3, b, 12.0);
    var st := UpdateStudent(s4, a, 21.0);
    assert st.history == map[];
    assert st.students == map[a.studentId := RecordOf(a, 21.0), b.studentId := RecordOf(b, 12.0)];
    var all := Participants(st);
    assert all == st.students;
    var ids := all.Keys;
    assert ids == {a.studentId, b.studentId};
    TwoElementSetSize(a.studentId, b.studentId);
    SumAveragesRemove(all, ids, a.studentId);
    assert ids - {a.studentId} == {b.studentId};
    SumAveragesRemove(all, {b.studentId}, b.studentId);
    assert {b.studentId} - {b.studentId} == {};
    assert SumAverages(all, ids) == 110;
  }

  lemma TwoElementSetSize<T>(x: T, y: T)
    requires x != y
    ensures |{x, y}| == 2
  {
  }

  /** Where the rollup departs from a running mean: reports of 30 then 50 give
      a session average of 50, the last value, not 40. */
  lemma LastReportWins(a: Metrics)
    requires a.fatigue == 30
    ensures var st := UpdateStudent(UpdateStudent(EmptyStore(), a, 1.0), a.(fatigue := 50), 11.0);
      EntryOf(Participants(st)[a.studentId]).fatigue == 50
  {
  }
}

=== FILE: rollup.dfy ===
/** The end-of-class rollup (`end_class` in host_server/server.py): merge the
    history with the live map, average and band each participant, compute
    the class summary, and clear the store. */
module SessionRollup {
  import opened Common
  import opened Attention
  import opened SessionStore

  /** A participant's session average: the truncated mean of the running
      totals when there are samples, otherwise the last reported fatigue. */
  function SessionAverage(rec: Record): (avg: int)
    ensures rec.samples.None? ==> avg == rec.fatigue
    ensures rec.samples.Some? && rec.samples.value.countSamples <= 0 ==> avg == rec.fatigue
    ensures rec.samples.Some? && rec.samples.value.countSamples > 0 ==>
      var t := rec.samples.value;
      && (t.sumFatigue >= 0 ==> 0 <= avg && avg * t.countSamples <= t.sumFatigue < (avg + 1) * t.countSamples)
      && (t.sumFatigue < 0 ==> avg <= 0 && (avg - 1) * t.countSamples < t.sumFatigue <= avg * t.countSamples)
  {
    match rec.samples
    case Some(t) => if t.countSamples > 0 then TruncDiv(t.sumFatigue, t.countSamples) else rec.fatigue
    case None => rec.fatigue
  }

  /** The rollup's bands: above 70 drowsy, above 40 passive, else active. */
  function SessionBand(avg: int): (st: Status)
    ensures st == Drowsy <==> avg > 70
    ensures st == Passive <==> 40 < avg <= 70
    ensures st == Active <==> avg <= 40
  {
    if avg > 70 then Drowsy
    else if avg > 40 then Passive
    else Active
  }

  /** The rollup bands and the client's bands disagree exactly at 40 and 70. */
  lemma BandsDisagreeOnlyAtBoundaries(perclos: int)
    ensures FatigueBand(perclos) != SessionBand(perclos) <==> perclos == 40 || perclos == 70
    ensures FatigueBand(40) == Passive && SessionBand(40) == Active
    ensures FatigueBand(70) == Drowsy && SessionBand(70) == Passive
  {
  }

  datatype FinalEntry = FinalEntry(name: string, status: Status, fatigue: int)
  datatype Summary = Summary(classAverageFatigue: real, engagementScore: real, totalStudents: nat)
  datatype SessionReport = SessionReport(students: map<string, FinalEntry>, summary: Summary)

  function EntryOf(rec: Record): FinalEntry
  {
    var avg := SessionAverage(rec);
    FinalEntry(rec.name, SessionBand(avg), avg)
  }

  /** `{**history, **students}`: every participant of the session, the live
      record winning for an id present in both maps. */
  function Participants(st: Store): (all: map<string, Record>)
    ensures all.Keys == st.students.Keys + st.history.Keys
    ensures forall id :: id in st.students ==> all[id] == st.students[id]
    ensures forall id :: id in st.history && id !in st.students ==> all[id] == st.history[id]
  {
    st.history + st.students
  }

  /** The sum of the session averages of the participants in `ids`. */
  ghost function SumAverages(all: map<string, Record>, ids: set<string>): int
    requires ids <= all.Keys
    decreases ids
  {
    if ids == {} then 0
    else
      var id :| id in ids;
      SessionAverage(all[id]) + SumAverages(all, ids - {id})
  }

  /** The class average the rollup reports: the mean of the session averages,
      0 for an empty session. */
  ghost function ClassAverage(all: map<string, Record>): real
  {
    if |all.Keys| == 0 then 0.0
    else (SumAverages(all, all.Keys) as real) / (|all.Keys| as real)
  }

  /** The sum does not depend on the order participants are visited in. */
  lemma {:induction false} SumAveragesRemove(all: map<string, Record>, ids: set<string>, id: string)
    requires ids <= all.Keys && id in ids
    ensures SumAverages(all, ids) == SessionAverage(all[id]) + SumAverages(all, ids - {id})
    decreases ids
  {
    var y :| y in ids && SumAverages(all, ids) == SessionAverage(all[y]) + SumAverages(all, ids - {y});
    if y != id {
      SumAveragesRemove(all, ids - {y}, id);
      SumAveragesRemove(all, ids - {id}, y);
      assert ids - {y} - {id} == ids - {id} - {y};
    }
  }

  lemma {:induction false} SumAveragesBounds(all: map<string, Record>, ids: set<string>)
    requires ids <= all.Keys
    requires forall id :: id in ids ==> 0 <= SessionAverage(all[id]) <= 100
    ensures 0 <= SumAverages(all, ids) <= 100 * |ids|
    decreases ids
  {
    if ids != {} {
      var id :| id in ids;
      SumAveragesRemove(all, ids, id);
      SumAveragesBounds(all, ids - {id});
    }
  }

  lemma MeanBounds(total: int, count: int)
    requires count > 0 && 0 <= total <= 100 * count
    ensures 0.0 <= (total as real) / (count as real) <= 100.0
  {
  }

  /** Because no handler writes running totals, every session average is the
      participant's last reported fatigue. */
  lemma AverageIsLastFatigue(st: Store)
    requires NoRunningTotals(st)
    ensures forall id :: id in Participants(st) ==>
      EntryOf(Participants(st)[id]).fatigue == Participants(st)[id].fatigue
  {
  }

  /** The loop over all participants: one report entry each, and the running
      total and count of their session averages. */
  method RollupEntries(all: map<string, Record>) returns (entries: map<string, FinalEntry>, total: int, count: nat)
    ensures entries.Keys == all.Keys
    ensures forall id :: id in all ==> entries[id] == EntryOf(all[id])
    ensures total == SumAverages(all, all.Keys)
    ensures count == |all.Keys|
  {
    var remaining := all.Keys;
    entries := map[];
    total := 0;
    count := 0;
    while remaining != {}
      invariant remaining <= all.Keys
      invariant entries.Keys == all.Keys - remaining
      invariant forall id :: id in entries ==> entries[id] == EntryOf(all[id])
      invariant total + SumAverages(all, remaining) == SumAverages(all, all.Keys)
      invariant count + |remaining| == |all.Keys|
      decreases remaining
    {
      var id :| id in remaining;
      SumAveragesRemove(all, remaining, id);
      total := total + SessionAverage(all[id]);
      count := count + 1;
      entries := entries[id := EntryOf(all[id])];
      remaining := remaining - {id};
    }
  }

  /** The class summary from the total and count of the session averages. */
  function SummaryOf(total: int, count: nat): (s: Summary)
    ensures s.totalStudents == count
    ensures count == 0 ==> s == Summary(0.0, 100.0, 0)
    ensures count > 0 ==> s.classAverageFatigue * (count as real) == total as real
    ensures s.classAverageFatigue + s.engagementScore == 100.0
    ensures count > 0 && 0 <= total <= 100 * count ==>
      0.0 <= s.classAverageFatigue <= 100.0 && 0.0 <= s.engagementScore <= 100.0
  {
    var classAverage := if count > 0 then (total as real) / (count as real) else 0.0;
    if count > 0 && 0 <= total <= 100 * count then
      MeanBounds(total, count);
      Summary(classAverage, 100.0 - classAverage, count)
    else
      Summary(classAverage, 100.0 - classAverage, count)
  }

  /** `POST /end_class`: report every participant and the class summary, then
      clear both maps. */
  method EndClass(st: Store) returns (cleared: Store, report: SessionReport)
    ensures cleared == EmptyStore()
    ensures report.students.Keys == st.students.Keys + st.history.Keys
    ensures forall id :: id in st.students ==> report.students[id] == EntryOf(st.students[id])
    ensures forall id :: id in st.history && id !in st.students ==> report.students[id] == EntryOf(st.history[id])
    ensures report.summary.totalStudents == |st.students.Keys + st.history.Keys|
    ensures report.summary.classAverageFatigue == ClassAverage(Participants(st))
    ensures report.summary.engagementScore == 100.0 - report.summary.classAverageFatigue
    ensures report.summary.totalStudents == 0 ==> report.summary == Summary(0.0, 100.0, 0)
    ensures NoRunningTotals(st) && FatigueInRange(st) ==>
      && 0.0 <= report.summary.classAverageFatigue <= 100.0
      && 0.0 <= report.summary.engagementScore <= 100.0
  {
    var all := Participants(st);
    var entries, total, count := RollupEntries(all);
    if NoRunningTotals(st) && FatigueInRange(st) {
      SumAveragesBounds(all, all.Keys);
    }
    report := SessionReport(entries, SummaryOf(total, count));
    cleared := EmptyStore();
  }

  /** Evicting into the history changes nothing the rollup would report. */
  lemma HistoryEvictionPreservesParticipants(st: Store, now: real, threshold: real)
    ensures Participants(EvictIdleToHistory(st, now, threshold)) == Participants(st)
  {
  }

  /** The served eviction loses a participant that goes idle before it was
      ever in the history: the rollup no longer sees it. */
  lemma ServedEvictionLosesParticipants(st: Store, now: real, id: string)
    requires id in st.students && id !in st.history
    requires Idle(st.students[id], now, ServedIdleThreshold)
    ensures id in Participants(st)
    ensures id !in Participants(GetStudents(st, now))
  {
  }
}

=== FILE: store.dfy ===
/** The session server's in-memory store (host_server/server.py): the live
    `students` map and the `history` map of evicted participants, both keyed
    by participant id. Each handler runs under one lock, so each is one
    atomic transition here; the server clock is the parameter `now`. */
module SessionStore {
  import opened Common

  /** The body of a report, as the transport layer hands it to the handler. */
  datatype Metrics = Metrics(
    studentId: string,
    studentName: string,
    ear: real,
    eyeStatus: string,
    fatigue: int,
    yawningStatus: string,
    headStatus: string,
    status: string,
    timestamp: real)

  /** Running fatigue totals that the rollup reads (`sum_fatigue`,
      `count_samples`); no handler ever writes them. */
  datatype SampleTotals = SampleTotals(sumFatigue: int, countSamples: int)

  /** A stored participant record; `timestamp` is the server's receipt time. */
  datatype Record = Record(
    name: string,
    ear: real,
    eyeStatus: string,
    fatigue: int,
    yawningStatus: string,
    headStatus: string,
    status: string,
    timestamp: real,
    samples: Option<SampleTotals>)

  datatype Store = Store(students: map<string, Record>, history: map<string, Record>)

  /** Idle threshold of the `/students` handler registered first, which is the
      one requests reach: idle records are deleted. */
  const ServedIdleThreshold: real := 10.0
  /** Idle threshold of the second, shadowed `/students` handler, which moves
      idle records to the history. */
  const ShadowedIdleThreshold: real := 15.0

  function EmptyStore(): Store
  {
    Store(map[], map[])
  }

  /** The record `update_student` stores: the report's fields, the server's
      own clock instead of the client's timestamp, and no running totals. */
  function RecordOf(m: Metrics, now: real): Record
  {
    Record(m.studentName, m.ear, m.eyeStatus, m.fatigue, m.yawningStatus,
           m.headStatus, m.status, now, None)
  }

  /** `POST /update`: overwrite the participant's live record. */
  function UpdateStudent(st: Store, m: Metrics, now: real): (r: Store)
    ensures r.students.Keys == st.students.Keys + {m.studentId}
    ensures var rec := r.students[m.studentId];
      && rec.name == m.studentName && rec.ear == m.ear && rec.eyeStatus == m.eyeStatus
      && rec.fatigue == m.fatigue && rec.yawningStatus == m.yawningStatus
      && rec.headStatus == m.headStatus && rec.status == m.status
      && rec.timestamp == now && rec.samples.None?
    ensures forall id :: id in st.students && id != m.studentId ==> r.students[id] == st.students[id]
    ensures r.history == st.history
  {
    st.(students := st.students[m.studentId := RecordOf(m, now)])
  }

  /** A record nobody refreshed for strictly more than `threshold` seconds. */
  predicate Idle(rec: Record, now: real, threshold: real)
  {
    now - rec.timestamp > threshold
  }

  function ActivePart(students: map<string, Record>, now: real, threshold: real): map<string, Record>
  {
    map id | id in students && !Idle(students[id], now, threshold) :: students[id]
  }

  function IdlePart(students: map<string, Record>, now: real, threshold: real): map<string, Record>
  {
    map id | id in students && Idle(students[id], now, threshold) :: students[id]
  }

  /** Eviction as the served `/students` handler does it: idle records are
      deleted, the rest stay as they were, the history is not touched. */
  function EvictIdle(st: Store, now: real, threshold: real): (r: Store)
    ensures forall id :: id in r.students <==> id in st.students && !Idle(st.students[id], now, threshold)
    ensures forall id :: id in r.students ==> r.students[id] == st.students[id]
    ensures r.history == st.history
  {
    st.(students := ActivePart(st.students, now, threshold))
  }

  /** Eviction as the shadowed `/students` handler does it: each idle record is
      copied unchanged into the history (replacing an older history entry for
      the same id) and removed from the live map. */
  function EvictIdleToHistory(st: Store, now: real, threshold: real): (r: Store)
    ensures forall id :: id in r.students <==> id in st.students && !Idle(st.students[id], now, threshold)
    ensures forall id :: id in r.students ==> r.students[id] == st.students[id]
    ensures forall id :: id in st.students && Idle(st.students[id], now, threshold) ==>
      id in r.history && r.history[id] == st.students[id]
    ensures forall id :: id in st.history && !(id in st.students && Idle(st.students[id], now, threshold)) ==>
      id in r.history && r.history[id] == st.history[id]
    ensures forall id :: id in r.history ==>
      id in st.history || (id in st.students && Idle(st.students[id], now, threshold))
    ensures r.students.Keys + r.history.Keys == st.students.Keys + st.history.Keys
  {
    Store(ActivePart(st.students, now, threshold),
          st.history + IdlePart(st.students, now, threshold))
  }

  /** `GET /students` as served (the first registration): evict with the 10 s
      threshold and delete; the response body is the new live map. */
  function GetStudents(st: Store, now: real): (r: Store)
    ensures forall id :: id in r.students ==> now - r.students[id].timestamp <= ServedIdleThreshold
    ensures forall id :: id in st.students && now - st.students[id].timestamp <= ServedIdleThreshold ==>
      id in r.students && r.students[id] == st.students[id]
    ensures forall id :: id in r.students ==> id in st.students && r.students[id] == st.students[id]
    ensures r.history == st.history
  {
    EvictIdle(st, now, ServedIdleThreshold)
  }

  /** `GET /students` as the second, unreachable registration would serve it:
      evict with the 15 s threshold into the history. */
  function GetStudentsShadowed(st: Store, now: real): (r: Store)
    ensures forall id :: id in r.students ==> now - r.students[id].timestamp <= ShadowedIdleThreshold
    ensures forall id :: id in st.students && now - st.students[id].timestamp <= ShadowedIdleThreshold ==>
      id in r.students && r.students[id] == st.students[id]
    ensures forall id :: id in r.students ==> id in st.students && r.students[id] == st.students[id]
    ensures forall id :: id in st.students && now - st.students[id].timestamp > ShadowedIdleThreshold ==>
      id in r.history && r.history[id] == st.students[id]
    ensures forall id :: id in st.history && !(id in st.students && now - st.students[id].timestamp > ShadowedIdleThreshold) ==>
      id in r.history && r.history[id] == st.history[id]
    ensures forall id :: id in r.history ==>
      id in st.history || (id in st.students && now - st.students[id].timestamp > ShadowedIdleThreshold)
    ensures r.students.Keys + r.history.Keys == st.students.Keys + st.history.Keys
  {
    EvictIdleToHistory(st, now, ShadowedIdleThreshold)
  }

  /** No stored record carries running totals. */
  predicate NoRunningTotals(st: Store)
  {
    && (forall id :: id in st.students ==> st.students[id].samples.None?)
    && (forall id :: id in st.history ==> st.history[id].samples.None?)
  }

  /** Every stored fatigue is a percentage. */
  predicate FatigueInRange(st: Store)
  {
    && (forall id :: id in st.students ==> 0 <= st.students[id].fatigue <= 100)
    && (forall id :: id in st.history ==> 0 <= st.history[id].fatigue <= 100)
  }

  /** No transition ever writes running totals, so a store that starts empty
      never holds any. */
  lemma TransitionsKeepNoRunningTotals(st: Store, m: Metrics, now: real, threshold: real)
    requires NoRunningTotals(st)
    ensures NoRunningTotals(EmptyStore())
    ensures NoRunningTotals(UpdateStudent(st, m, now))
    ensures NoRunningTotals(EvictIdle(st, now, threshold))
    ensures NoRunningTotals(EvictIdleToHistory(st, now, threshold))
  {
  }

  /** Stored fatigue stays a percentage as long as reports carry one. */
  lemma TransitionsKeepFatigueInRange(st: Store, m: Metrics, now: real, threshold: real)
    requires FatigueInRange(st) && 0 <= m.fatigue <= 100
    ensures FatigueInRange(EmptyStore())
    ensures FatigueInRange(UpdateStudent(st, m, now))
    ensures FatigueInRange(EvictIdle(st, now, threshold))
    ensures FatigueInRange(EvictIdleToHistory(st, now, threshold))
  {
  }

  /** A second eviction at the same instant changes nothing (either variant). */
  lemma EvictionIsIdempotent(st: Store, now: real, threshold: real)
    ensures EvictIdle(EvictIdle(st, now, threshold), now, threshold) == EvictIdle(st, now, threshold)
    ensures EvictIdleToHistory(EvictIdleToHistory(st, now, threshold), now, threshold)
      == EvictIdleToHistory(st, now, threshold)
  {
  }

  /** With the second, 15 s `/students` registration (the only code that
      writes the history), a participant evicted into the history who then
      reports again is in both maps. */
  lemma LiveAndHistoryCanOverlap(m: Metrics)
    ensures var evicted := EvictIdleToHistory(UpdateStudent(EmptyStore(), m, 0.0), 20.0, ShadowedIdleThreshold);
      var back := UpdateStudent(evicted, m, 21.0);
      m.studentId in back.students && m.studentId in back.history
  {
  }

  /** As the server is served, the history stays empty: neither `update` nor
      the 10 s `/students` handler writes it, so no id is ever in both maps. */
  lemma ServedHandlersNeverWriteHistory(st: Store, m: Metrics, now: real)
    requires st.history == map[]
    ensures EmptyStore().history == map[]
    ensures UpdateStudent(st, m, now).history == map[]
    ensures GetStudents(st, now).history == map[]
    ensures forall id :: id in GetStudents(st, now).students ==> id !in GetStudents(st, now).history
  {
  }
}
